=== FILE: README.md ===
# BSD executor support layer of syzkaller, modelled in Dafny

This project models the pure decision logic of `executor/common_bsd.h`, the
BSD-specific (FreeBSD, OpenBSD, NetBSD) support layer of the syzkaller
executor. It covers four pieces:

- **The TCP resource extractor** `syz_extract_tcp_res` (module `TcpExtract`).
  It reads one frame of at most 1000 bytes from the tap device. It walks the
  Ethernet II header, then the IPv4 header (or, for any other EtherType, a
  fixed IPv6 header), then the TCP header, checking the length before every
  read. It returns the sequence and acknowledgment numbers plus the caller's
  deltas modulo 2^32, in network byte order. The parser also reports every
  frame index it reads. The model proves that all of them are below the frame
  length, and that the result depends on those bytes only.
- **The tap device guards** `syz_emit_ethernet` and `read_tun` (module `Tun`).
  A negative `tunfd` means there is no device. A read that would block
  (EAGAIN) is "not available". Any other read error is fatal.
- **The tap device set-up** `initialize_tun` (modules `Tun`, `Commands`,
  `Format`). It range-checks the tun id against `MAX_TUN`. It formats the
  names and addresses from fixed templates under `snprintf_check`'s fit rule.
  It plans the ordered `(panic, command)` list passed to `execute_command`.
  It moves the descriptor to slot 240.
- **The segment clamp of `syz_mount_image`** (module `MountImage`) and the
  rest of that call: the backing-file check, the writes, the `vndconfig` and
  `mount` commands, and the file-system type truncation.

Effects outside the program are parameters: the shell status of each command
line (`status: string -> int`), the results of `open(2)` and `dup2(2)`, what
`read(2)` and `write(2)` return, and whether the backing image file exists.
Build-time switches are values: the target OS is `Tun.Os`, and the executor
versus a standalone reproducer, with the executor's tun flag, is `Tun.Build`.
The global `tunfd` is passed explicitly. Frames are sequences of bytes
(`Base.uint8`). C integer widths are subset types, and 32-bit wrap-around is
written out (`Bytes.AddWrap32`, `Bytes.ToUint32`).

Files: `base.dfy` (integer types, `Option`, `Result`, fatal reasons),
`bytes.dfy` (network byte order), `format.dfy` (`%d`, `%02hx`,
`snprintf_check`), `commands.dfy` (`execute_command`), `tun.dfy`,
`tcp_extract.dfy`, `mount_image.dfy`.

Line 361 raises the image size to `offset + offset`, which looks like a slip
for `offset + size`. The model reproduces it as written in
`MountImage.ClampSegments` and gives the corrected formula separately (see
Findings).

Strings are C byte strings, one `char` per byte. Where the source passes a
caller's buffer through `%s` or `strncpy`, the model takes its characters up
to the first NUL (`Format.CString`).

## Model

| member | source | states |
|---|---|---|
| Bytes.DecodeEncode32 | executor/common_bsd.h:306-307 | ntohl of htonl's four bytes gives the value back |
| Bytes.EncodeDecode32 | executor/common_bsd.h:306-307 | htonl of what ntohl read gives the same four bytes back |
| Bytes.AddWrap32 | executor/common_bsd.h:306-307 | The uint32 sum of two uint32 values is their plain sum when that is below 2^32, and the plain sum minus 2^32 otherwise. |
| Format.DecimalRoundTrip | executor/common_bsd.h:63-72 | reading back the digits `%d` prints for a natural number gives the number |
| Format.DecimalInjective | executor/common_bsd.h:63-72 | distinct naturals print differently under `%d` |
| Format.DecimalLengthBound | executor/common_bsd.h:63 | a number below 10^k prints in at most k digits, which is why the templates do not grow for ids below `MAX_TUN` |
| Format.FormatDInt32Length | executor/common_bsd.h:334-336 | any C `int` prints in at most 11 characters under `%d` |
| Format.FormatHex02h | executor/common_bsd.h:71-72 | `%02hx` gives at least two characters, and exactly the two lower-case hex digits of a value below 256 |
| Format.Hex02hInjective | executor/common_bsd.h:71-72 | distinct values below 256 print differently under `%02hx` |
| Format.SnprintfCheck | executor/common_bsd.h:74-92 | formatting succeeds, giving the text, exactly when the text and its NUL fit the buffer; otherwise the worker fails |
| Format.CString | executor/common_bsd.h:388 | the C string of a buffer is its longest NUL-free prefix: it stops at the first NUL, or takes the whole buffer when there is none |
| Format.FormatAll | executor/common_bsd.h:74-92 | a run of `snprintf_check` calls succeeds iff every text fits, and otherwise fails with the first text that does not fit |
| Commands.ExecuteCommand | executor/common_bsd.h:94-117 | a command is fatal iff its text does not fit the 128-byte buffer or it is a panic command that exits non-zero; a fitting non-panic command is never fatal |
| Commands.RunCommands | executor/common_bsd.h:98-117 | issuing commands in order stops at the first one that does not succeed; the commands before it, and it too when it fits, reach `system()` |
| Commands.RunFatalIffSomeCommandFails | executor/common_bsd.h:112-116 | a run ends the worker iff some command does not succeed; otherwise every command ran |
| Commands.BestEffortCommandsNeverFatal | executor/common_bsd.h:112-116 | commands that fit and are not panic commands never end the worker, whatever their status |
| Tun.InRangeIdDigits | executor/common_bsd.h:54-63 | every id below `MAX_TUN` prints in at most two digits |
| Tun.NamesShort | executor/common_bsd.h:63-72 | for an in-range id each name is at most as long as its template |
| Tun.TunNamesFit | executor/common_bsd.h:126-199 | for every in-range id every `snprintf_check` of initialize_tun fits its template-sized buffer |
| Tun.PlanCommandsFit | executor/common_bsd.h:136-200 | for every in-range id every command initialize_tun issues fits `execute_command`'s buffer |
| Tun.TeardownCommands | executor/common_bsd.h:136-143 | the teardown commands are all best-effort; the first destroys the interface (NetBSD) or the device (elsewhere), and only NetBSD issues two (destroy, then create) |
| Tun.TeardownIsBestEffort | executor/common_bsd.h:136-143 | for an in-range id the teardown never ends the worker, and every teardown command reaches the shell |
| Tun.ConfigureCommands | executor/common_bsd.h:168-200 | configuration issues five commands, and all except the third (ARP) and fifth (NDP) are panic commands |
| Tun.ConfigureTexts | executor/common_bsd.h:165-200 | for every OS and id the five configuration commands are, in order: set the interface's MAC to the local MAC with the OS's verb; give it the local IPv4 address in a /24; add an ARP entry from the remote IPv4 address to the remote MAC; give it the local IPv6 address; add an NDP entry from the remote IPv6 address, scoped to the interface, to the remote MAC |
| Tun.MacVerbPerOs | executor/common_bsd.h:172-178 | OpenBSD sets the MAC with `lladdr`, NetBSD with `link` and FreeBSD with `ether` |
| Tun.PlanTun | executor/common_bsd.h:119-143 | the plan exists iff 0 <= tun_id < MAX_TUN (64 on NetBSD, 4 otherwise), else it fails with the id; it uses the template expansions and exactly the teardown and configuration commands of those names; teardown commands are non-panic; all commands fit |
| Tun.DistinctWorkersDistinctNames | executor/common_bsd.h:63-72 | workers with different in-range ids get different interface, device, IPv4 and IPv6 names |
| Tun.WorkerTwoNames | executor/common_bsd.h:64-72 | id 2 gives tap2, /dev/tap2, 172.20.2.170, 172.20.2.187, fe80::02aa and fe80::02bb |
| Tun.OpenDevice | executor/common_bsd.h:145-151 | only FreeBSD with ENOENT on the first open loads if_tap (best-effort) and uses the second open's result |
| Tun.Provision | executor/common_bsd.h:136-200 | after set-up tunfd is -1 (reproducer, open failed) or 240 (open and dup2 succeeded and every configuration command succeeded); conversely, a reproducer whose open fails gets -1 after the teardown, a failed dup2 is fatal, and open + dup2 + succeeding configuration always give tunfd 240 after teardown, load and configuration; the executor fails on an open failure |
| Tun.InitializeTun | executor/common_bsd.h:119-201 | tun flag off: nothing happens and tunfd stays -1; an out-of-range id is fatal; success in the executor always leaves tunfd 240, and an in-range set-up whose open, dup2 and configuration commands succeed does succeed with tunfd 240; the first command destroys the interface (NetBSD) or device (elsewhere) of this id |
| Tun.InitializeTunFailurePolicy | executor/common_bsd.h:161-200 | once the device is open and relocated, initialize_tun ends the worker iff the MAC, `inet` or `inet6` command exits non-zero; ARP and NDP failures are ignored |
| Tun.ConfigureFailurePolicy | executor/common_bsd.h:168-200 | configuration ends the worker iff the MAC, `inet` or `inet6` command exits non-zero; ARP and NDP failures are ignored |
| Tun.SyzEmitEthernet | executor/common_bsd.h:209-220 | without a device nothing is written and -1 is returned; otherwise the packet is written verbatim and write's result returned |
| Tun.EmitWithoutDevice | executor/common_bsd.h:209-213 | emitting after a set-up that left no device (tun flag off, or the reproducer's open failed) returns -1 and writes nothing |
| Tun.ReadTun | executor/common_bsd.h:226-238 | -1 without a device or on EAGAIN; fatal (with read's -1) on any other error; otherwise the count of bytes read, which is the frame truncated to the buffer |
| TcpExtract.LocateTcpHeader | executor/common_bsd.h:278-303 | every index the header walk reads is below the frame length; a found TCP header lies wholly inside the frame, at 14 + 4·IHL or at 54 |
| TcpExtract.ParseFrame | executor/common_bsd.h:278-307 | reads stay in bounds; a result exists iff a TCP header was found, and it is the big-endian seq and ack fields plus the deltas modulo 2^32 |
| TcpExtract.SyzExtractTcpRes | executor/common_bsd.h:264-313 | -1 without a device or on would-block; fatal on other read errors; for a frame, 0 with the 8 bytes encoding the parse of its first 1000 bytes when that parse finds a TCP header, and -1 with nothing written when it does not |
| TcpExtract.ShortFrameUnavailable | executor/common_bsd.h:280-281 | a frame shorter than 14 bytes is unavailable and no byte is read |
| TcpExtract.Ipv4Path | executor/common_bsd.h:284-292 | for EtherType 0x0800 the TCP header is found iff length >= 34, protocol = 6 and length >= 14 + 4·IHL + 20; it then starts at 14 + 4·IHL |
| TcpExtract.NonIpv4Path | executor/common_bsd.h:293-302 | any other EtherType is taken for IPv6: found iff length >= 74 and next header = 6, at offset 54; extension headers are not skipped |
| TcpExtract.ResultDependsOnlyOnTouchedBytes | executor/common_bsd.h:280-307 | two frames of the same length that agree on the reported indices parse identically |
| TcpExtract.ZeroDeltaEchoesFields | executor/common_bsd.h:305-307 | with zero deltas the 8 output bytes equal the frame's seq and ack bytes |
| TcpExtract.Ipv4RoundTrip | executor/common_bsd.h:284-307 | a well-formed IPv4/TCP frame carrying S and A yields (S + d1, A + d2) modulo 2^32 |
| TcpExtract.Ipv6RoundTrip | executor/common_bsd.h:293-307 | a well-formed IPv6/TCP frame carrying S and A yields (S + d1, A + d2) modulo 2^32 |
| TcpExtract.ExtractEchoesFields | executor/common_bsd.h:264-313 | the whole call with zero deltas on a TCP frame returns 0 and writes the frame's own 8 seq/ack bytes |
| MountImage.ClampSegment | executor/common_bsd.h:355-360 | the size becomes min(size, 129·2^20); the segment ends inside the image; the offset is the original modulo the maximum when that fits, and otherwise exactly the maximum minus the size |
| MountImage.MaxDoubledOffsetIsMax | executor/common_bsd.h:361-362 | the accumulated value is the maximum of `offset + offset` over the segments |
| MountImage.ImageSizeAsWritten | executor/common_bsd.h:361-365 | the recomputed size never exceeds the maximum and is at least min(max, 2·offset) for every segment |
| MountImage.ClampSegments | executor/common_bsd.h:352-365 | the count becomes min(nsegs, 4096); exactly the first that many segments are clamped, giving `ClampedPrefix`, and the rest are unchanged; the total is min(129·2^20, max(size, max 2·offset)) |
| MountImage.AsWrittenSizeMissesSegment | executor/common_bsd.h:361-362 | a 4096-byte segment at offset 0 ends past the size the loop computes |
| MountImage.ImageSizeCorrected | executor/common_bsd.h:361-365 | the corrected size holds every clamped segment, is not below the caller's size (capped), and is attained by one of them |
| MountImage.ClampedPrefix | executor/common_bsd.h:375-380 | the segments written are the clamped first min(nsegs, 4096) segments, and every one of them ends inside the 129 MiB image, so no pwrite reaches past it |
| MountImage.FsType | executor/common_bsd.h:386-388 | the file-system type is a NUL-free prefix of the caller's string of at most 31 characters; it is cut short only by the 31-character limit or at the first NUL |
| MountImage.MountNamesFit | executor/common_bsd.h:334-336 | for any worker id the image, vnd device and vnd node names fit their 64-byte buffers |
| MountImage.WorkerTwoMountCommands | executor/common_bsd.h:383-395 | worker 2 runs `vndconfig vnd2 /tmp/diskimage2` and, for type ffs on /mnt, `mount -r -t ffs /dev/vnd2 /mnt` |
| MountImage.SyzMountImage | executor/common_bsd.h:344-398 | a missing image file returns -1 with no writes and no commands; otherwise the call is fatal iff vndconfig or mount does not succeed; once the image file exists a non-fatal call returns 0; on success the clamped segments are written in bounds and the two commands run in order |
| MountImage.LongMountDirIsFatal | executor/common_bsd.h:394-395 | a mount directory whose C string is 128 characters or more makes the mount command overflow its buffer, which is fatal |

## Left out

- pkg/build/netbsd.go: kernel build orchestration (build.sh, file copies, a VM boot over SSH). It is foreign calls and I/O only.
- The sandbox layer (`sandbox_common`, `do_sandbox_none`, `wait_for_loop`, `do_sandbox_setuid`, executor/common_bsd.h:404-497): setsid, setrlimit, fork, waitpid and setuid plumbing whose behaviour lives in the kernel.
- `syz_open_pts` (executor/common_bsd.h:23-34): pty allocation, pure I/O.
- `NONFAILING` fault recovery (executor/common_bsd.h:306-307, 388): the result bytes are always produced and the file-system type is always copied. Invalid destination memory is not modelled.
- Debug output (`debug`, `debug_dump_data`) and the reproducer's `printf` on an open failure.
- The effects of `system`, `open`, `dup2`, `close`, `read`, `write`, `pwrite`, `mkdir` and `mount`: they are parameters or abstract outcomes. The `close` of the original descriptor after `dup2` is not tracked.
- `vsnprintf` returning a negative value (executor/common_bsd.h:79-80): this cannot happen for the `%d`, `%s` and `%02hx` conversions used.
- Tun.PlanTun: formats every name before any command is issued. The source interleaves formatting with commands. The two differ only when a format fails, and `Tun.TunNamesFit` proves that never happens for an in-range id.
- MountImage.SyzMountImage: `pwrite` failures are only logged in the source, so every clamped segment counts as written. The segments' data pointers and bytes are not modelled. The caller must supply at least min(nsegs, 4096) segments, as the C code reads that many.
- MountImage.FsType: characters stand for bytes, so a caller's string is taken as already being bytes; the UTF-8 encoding of characters above 255 is not modelled. The same holds for `dir` in `MountImage.MountCommand` and for the fit rule of `Format.SnprintfCheck`.
- The `(uintptr_t)-1` results are modelled as the `long` value -1 they become on the 64-bit targets.
- The `seq_inc` and `ack_inc` arguments are any integers, converted to uint32 modulo 2^32 as C does.
- The recomputed image size of `syz_mount_image` feeds only a debug line in the source. `MountImage.SyzMountImage` therefore reports no size. `MountImage.ImageSizeCorrected` is the size this model offers.

## Findings

| source | as written | input that shows it | evidently intended | confidence | as-written member | corrected member |
|---|---|---|---|---|---|---|
| executor/common_bsd.h:361-362 | the image size is raised to `offset + offset` of each clamped segment | size 0 and one segment of size 4096 at offset 0: the computed size stays 0 while the segment ends at byte 4096 | raise it to `offset + size`, so the image holds every segment | likely; not executed | MountImage.AsWrittenSizeMissesSegment | MountImage.ImageSizeCorrected |

=== FILE: base.dfy ===
/**
 * Machine integer types, the Option/Result wrappers and the reasons for which
 * the executor's fail() ends a worker process.
 */
module Base {

  /** An unsigned 8-bit byte of a frame. */
  type uint8 = x: int | 0 <= x < 0x100

  /** An unsigned 16-bit value (the `h` length modifier of printf). */
  type uint16 = x: int | 0 <= x < 0x1_0000

  /** An unsigned 32-bit value (`uint32`, a TCP sequence number). */
  type uint32 = x: int | 0 <= x < 0x1_0000_0000

  /** An unsigned 64-bit value (`unsigned long` and `uintptr_t` on the 64-bit BSD targets). */
  type uint64 = x: int | 0 <= x < 0x1_0000_0000_0000_0000

  /** A signed 32-bit C `int`. */
  type int32 = x: int | -0x8000_0000 <= x < 0x8000_0000

  const TwoTo32: int := 0x1_0000_0000

  datatype Option<+T> = None | Some(value: T)

  /** Why fail() was called: every one of these terminates the worker. */
  datatype Reason =
    | TunIdOutOfRange(tunId: int)
    | FormatDoesNotFit(text: string, size: nat)
    | CommandFailed(command: string, status: int)
    | TunOpenFailed(device: string)
    | Dup2Failed
    | TunReadFailed(rv: int)

  /** The outcome of a step that may end the worker with fail(). */
  datatype Result<+T> = Ok(value: T) | Fatal(reason: Reason) {
    predicate IsFailure() {
      Fatal?
    }

    function PropagateFailure<U>(): Result<U>
      requires Fatal?
    {
      Fatal(reason)
    }

    function Extract(): T
      requires Ok?
    {
      value
    }
  }

  function Min(a: int, b: int): int {
    if a <= b then a else b
  }

  function Max(a: int, b: int): int {
    if a >= b then a else b
  }
}

=== FILE: bytes.dfy ===
/**
 * Network byte order: the ntohs/ntohl/htonl conversions the extractor applies
 * to header fields, and 32-bit wrap-around addition.
 */
module Bytes {
  import opened Base

  /** ntohs over two bytes in memory. */
  function BigEndian16(b: seq<uint8>): (v: uint16)
    requires |b| == 2
    ensures v / 0x100 == b[0] && v % 0x100 == b[1]
  {
    (b[0] as int) * 0x100 + b[1]
  }

  /** ntohl over four bytes in memory. */
  function BigEndian32(b: seq<uint8>): (v: uint32)
    requires |b| == 4
  {
    (b[0] as int) * 0x100_0000 + (b[1] as int) * 0x1_0000 + (b[2] as int) * 0x100 + b[3]
  }

  /** htonl: the four bytes a 32-bit value occupies in memory, most significant first. */
  function ToBigEndian32(v: uint32): (b: seq<uint8>)
    ensures |b| == 4
  {
    [v / 0x100_0000, (v / 0x1_0000) % 0x100, (v / 0x100) % 0x100, v % 0x100]
  }

  /** The C conversion `(uint32)x` of any integer: reduction modulo 2^32. */
  function ToUint32(x: int): (r: uint32)
    ensures (x - r) % TwoTo32 == 0
  {
    x % TwoTo32
  }

  /** `a + b` on two uint32 operands, which wraps modulo 2^32 in C. */
  function AddWrap32(a: uint32, b: uint32): (r: uint32)
    ensures a + b < TwoTo32 ==> r == a + b
    ensures a + b >= TwoTo32 ==> r == a + b - TwoTo32
  {
    (a + b) % TwoTo32
  }

  /** Division by 256 of a number written as q * 256 + r with a digit r. */
  lemma DivModByte(x: int, q: int, r: int)
    requires 0 <= r < 0x100 && x == q * 0x100 + r
    ensures x / 0x100 == q && x % 0x100 == r
  {
  }

  /** Decoding what htonl produced gives the value back. */
  lemma DecodeEncode32(v: uint32)
    ensures BigEndian32(ToBigEndian32(v)) == v
  {
    var b := ToBigEndian32(v);
    var w1 := v / 0x100;
    var w2 := w1 / 0x100;
    assert v == w1 * 0x100 + b[3];
    assert w2 == v / 0x1_0000;
    assert w1 == w2 * 0x100 + b[2];
    assert w2 / 0x100 == v / 0x100_0000;
    assert w2 == (b[0] as int) * 0x100 + b[1];
  }

  /** Encoding what ntohl read gives the same four bytes back. */
  lemma EncodeDecode32(b: seq<uint8>)
    requires |b| == 4
    ensures ToBigEndian32(BigEndian32(b)) == b
  {
    var v := BigEndian32(b);
    var w2: int := (b[0] as int) * 0x100 + b[1];
    var w1: int := w2 * 0x100 + b[2];
    assert v == w1 * 0x100 + b[3];
    DivModByte(v, w1, b[3]);
    DivModByte(w1, w2, b[2]);
    DivModByte(w2, b[0], b[1]);
    assert v / 0x1_0000 == w2;
    assert v / 0x100_0000 == b[0];
  }
}

=== FILE: commands.dfy ===
/**
 * execute_command: a shell command formatted into a fixed buffer, run through
 * system(), with a per-call policy on whether a non-zero status is fatal.
 * The shell itself is not modelled: `status` gives the status system()
 * returns for each shell line.
 */
module Commands {
  import opened Base
  import opened Format

  /** The PATH assignment prepended to every command, because the executor runs without an environment. */
  const PathPrefix: string := "PATH=/usr/local/sbin:/usr/local/bin:/usr/sbin:/usr/bin:/sbin:/bin "

  /** The buffer the command text is formatted into, after the PATH prefix. */
  const CommandMaxLen: nat := 128

  /** One call of execute_command: whether a non-zero status is fatal, and the formatted command text. */
  datatype Command = Command(panic: bool, text: string)

  /** The string handed to system(). */
  function ShellLine(c: Command): string {
    PathPrefix + c.text
  }

  /** The command fits its buffer and, when it is a panic command, exits with status 0. */
  predicate Succeeds(c: Command, status: string -> int) {
    |c.text| < CommandMaxLen && (c.panic ==> status(ShellLine(c)) == 0)
  }

  /** One execute_command call: fatal when the text does not fit or a panic command fails. */
  function ExecuteCommand(c: Command, status: string -> int): (r: Result<()>)
    ensures r.Ok? <==> Succeeds(c, status)
    ensures !c.panic && |c.text| < CommandMaxLen ==> r.Ok?
    ensures r.Fatal? && |c.text| < CommandMaxLen ==>
              r.reason == CommandFailed(ShellLine(c), status(ShellLine(c))) && status(ShellLine(c)) != 0
  {
    var _ :- SnprintfCheck(c.text, CommandMaxLen);
    var rv := status(ShellLine(c));
    if rv != 0 && c.panic then Fatal(CommandFailed(ShellLine(c), rv)) else Ok(())
  }

  /** The commands whose shell lines reached system(), and whether the sequence ended the worker. */
  datatype Run = Run(executed: seq<Command>, outcome: Result<()>)

  /** The index of the first command that does not succeed, or the number of commands when all do. */
  function FirstFailure(cmds: seq<Command>, status: string -> int): (j: nat)
    ensures j <= |cmds|
    ensures forall k :: 0 <= k < j ==> Succeeds(cmds[k], status)
    ensures j < |cmds| ==> !Succeeds(cmds[j], status)
  {
    if |cmds| == 0 then 0
    else if !Succeeds(cmds[0], status) then 0
    else 1 + FirstFailure(cmds[1..], status)
  }

  /**
   * Issue the commands in order; the first fatal one ends the worker. The
   * commands up to it reach system(), and so does the failing one when it
   * fits its buffer.
   */
  function RunCommands(cmds: seq<Command>, status: string -> int): (r: Run)
    ensures r.outcome.Ok? <==> FirstFailure(cmds, status) == |cmds|
    ensures r.outcome.Fatal? ==> r.outcome == ExecuteCommand(cmds[FirstFailure(cmds, status)], status)
    ensures var j := FirstFailure(cmds, status);
            r.executed == cmds[..j] + (if j < |cmds| && |cmds[j].text| < CommandMaxLen then [cmds[j]] else [])
  {
    if |cmds| == 0 then
      Run([], Ok(()))
    else
      var first := ExecuteCommand(cmds[0], status);
      if first.Fatal? then
        Run(if |cmds[0].text| < CommandMaxLen then [cmds[0]] else [], first)
      else
        var rest := RunCommands(cmds[1..], status);
        var j := FirstFailure(cmds[1..], status);
        assert FirstFailure(cmds, status) == j + 1;
        assert [cmds[0]] + cmds[1..][..j] == cmds[..j + 1];
        Run([cmds[0]] + rest.executed, rest.outcome)
  }

  /** A run of commands ends the worker exactly when one of them does not succeed. */
  lemma RunFatalIffSomeCommandFails(cmds: seq<Command>, status: string -> int)
    ensures RunCommands(cmds, status).outcome.Ok? <==> forall k :: 0 <= k < |cmds| ==> Succeeds(cmds[k], status)
    ensures RunCommands(cmds, status).outcome.Ok? ==> RunCommands(cmds, status).executed == cmds
  {
  }

  /** Commands that fit and are not panic commands never end the worker, whatever they exit with. */
  lemma BestEffortCommandsNeverFatal(cmds: seq<Command>, status: string -> int)
    requires forall k :: 0 <= k < |cmds| ==> !cmds[k].panic && |cmds[k].text| < CommandMaxLen
    ensures RunCommands(cmds, status).outcome.Ok?
    ensures RunCommands(cmds, status).executed == cmds
  {
    RunFatalIffSomeCommandFails(cmds, status);
  }
}

=== FILE: format.dfy ===
/**
 * The printf conversions the BSD executor uses to build names, addresses and
 * shell commands (`%d` and `%02hx`), and the fit rule of snprintf_check.
 */
module Format {
  import opened Base

  predicate IsDigit(c: char) {
    '0' <= c <= '9'
  }

  predicate AllDigits(s: string) {
    forall k :: 0 <= k < |s| ==> IsDigit(s[k])
  }

  function DigitChar(d: int): (c: char)
    requires 0 <= d < 10
    ensures IsDigit(c)
  {
    ('0' as int + d) as char
  }

  function DigitValue(c: char): (d: nat)
    requires IsDigit(c)
    ensures d < 10 && DigitChar(d) == c
  {
    c as int - '0' as int
  }

  /** The decimal digits of n, without leading zeros ("0" for zero). */
  function NatToDecimal(n: nat): (s: string)
    ensures 1 <= |s|
    ensures AllDigits(s)
    ensures n < 10 <==> |s| == 1
    decreases n
  {
    if n < 10 then [DigitChar(n)] else NatToDecimal(n / 10) + [DigitChar(n % 10)]
  }

  /** The number a string of decimal digits denotes. */
  function DecimalValue(s: string): nat
    requires AllDigits(s)
  {
    if |s| == 0 then 0 else DecimalValue(s[..|s| - 1]) * 10 + DigitValue(s[|s| - 1])
  }

  /** printf's `%d` conversion of an int. */
  function FormatD(n: int): (s: string)
    ensures 0 <= n ==> s == NatToDecimal(n)
    ensures n < 0 ==> s == "-" + NatToDecimal(-n)
  {
    if n < 0 then "-" + NatToDecimal(-n) else NatToDecimal(n)
  }

  /** Reading back the decimal digits `%d` printed recovers the number. */
  lemma {:induction false} DecimalRoundTrip(n: nat)
    ensures DecimalValue(NatToDecimal(n)) == n
    decreases n
  {
    if n >= 10 {
      var s := NatToDecimal(n);
      assert s[..|s| - 1] == NatToDecimal(n / 10);
      DecimalRoundTrip(n / 10);
    }
  }

  /** Distinct naturals print differently under `%d`. */
  lemma DecimalInjective(m: nat, n: nat)
    ensures NatToDecimal(m) == NatToDecimal(n) ==> m == n
  {
    if NatToDecimal(m) == NatToDecimal(n) {
      DecimalRoundTrip(m);
      DecimalRoundTrip(n);
    }
  }

  /** A number below 10^k prints in at most k digits. */
  lemma {:induction false} DecimalLengthBound(n: nat, k: nat)
    requires 1 <= k
    requires n < Pow10(k)
    ensures |NatToDecimal(n)| <= k
    decreases k
  {
    if n >= 10 {
      assert k >= 2;
      assert n / 10 < Pow10(k - 1);
      DecimalLengthBound(n / 10, k - 1);
    }
  }

  function Pow10(k: nat): (p: nat)
    ensures 1 <= p
  {
    if k == 0 then 1 else 10 * Pow10(k - 1)
  }

  /** Any C `int` prints in at most 11 characters under `%d` (sign and ten digits). */
  lemma FormatDInt32Length(n: int32)
    ensures |FormatD(n)| <= 11
  {
    assert Pow10(10) == 10_000_000_000;
    if n < 0 {
      DecimalLengthBound(-(n as int), 10);
    } else {
      DecimalLengthBound(n, 10);
    }
  }

  function HexDigitChar(d: int): char
    requires 0 <= d < 16
  {
    if d < 10 then ('0' as int + d) as char else ('a' as int + d - 10) as char
  }

  /** The lower-case hexadecimal digits of n, without leading zeros ("0" for zero). */
  function NatToHex(n: nat): (s: string)
    ensures 1 <= |s|
    ensures n < 16 <==> |s| == 1
    decreases n
  {
    if n < 16 then [HexDigitChar(n)] else NatToHex(n / 16) + [HexDigitChar(n % 16)]
  }

  /**
   * printf's `%02hx`: the argument converted to unsigned short, in lower-case
   * hexadecimal, zero-padded to at least two digits.
   */
  function FormatHex02h(n: int): (s: string)
    ensures 2 <= |s|
    ensures 0 <= n < 0x100 ==> s == [HexDigitChar(n / 16), HexDigitChar(n % 16)]
  {
    var h := NatToHex(n % 0x1_0000);
    assert 16 <= n < 0x100 ==> h == NatToHex(n / 16) + [HexDigitChar(n % 16)];
    if |h| < 2 then "0" + h else h
  }

  /** Distinct values below 256 print differently under `%02hx`. */
  lemma Hex02hInjective(m: int, n: int)
    requires 0 <= m < 0x100 && 0 <= n < 0x100
    ensures FormatHex02h(m) == FormatHex02h(n) ==> m == n
  {
    if FormatHex02h(m) == FormatHex02h(n) {
      assert HexDigitChar(m / 16) == HexDigitChar(n / 16);
      assert HexDigitChar(m % 16) == HexDigitChar(n % 16);
      assert m / 16 == n / 16 && m % 16 == n % 16;
    }
  }

  /**
   * The C string a buffer holds: its characters up to the first NUL, or all
   * of them when there is none. This is what `%s` prints and what strncpy
   * copies.
   */
  function CString(s: string): (c: string)
    ensures c <= s
    ensures forall i :: 0 <= i < |c| ==> c[i] != '\0'
    ensures |c| < |s| ==> s[|c|] == '\0'
  {
    if |s| == 0 || s[0] == '\0' then [] else [s[0]] + CString(s[1..])
  }

  /**
   * snprintf_check / vsnprintf_check: formatting `text` into a buffer of `size`
   * bytes fails the worker unless the text and its terminating NUL fit.
   */
  function SnprintfCheck(text: string, size: nat): (r: Result<string>)
    ensures r.Ok? ==> r.value == text && |text| + 1 <= size
    ensures r.Fatal? ==> r.reason == FormatDoesNotFit(text, size) && size <= |text|
  {
    if |text| >= size then Fatal(FormatDoesNotFit(text, size)) else Ok(text)
  }

  /** One snprintf_check call: the expanded text and the size of its destination buffer. */
  datatype Formatting = Formatting(text: string, size: nat)

  predicate Fits(f: Formatting) {
    |f.text| < f.size
  }

  /** A run of snprintf_check calls in order: the first that does not fit fails the worker. */
  function FormatAll(fs: seq<Formatting>): (r: Result<seq<string>>)
    ensures r.Ok? <==> forall k :: 0 <= k < |fs| ==> Fits(fs[k])
    ensures r.Ok? ==> |r.value| == |fs| && forall k :: 0 <= k < |fs| ==> r.value[k] == fs[k].text
    ensures r.Fatal? ==> exists j :: && 0 <= j < |fs| && !Fits(fs[j])
                                     && (forall i :: 0 <= i < j ==> Fits(fs[i]))
                                     && r.reason == FormatDoesNotFit(fs[j].text, fs[j].size)
  {
    if |fs| == 0 then
      Ok([])
    else
      match SnprintfCheck(fs[0].text, fs[0].size)
      case Fatal(e) => Fatal(e)
      case Ok(first) =>
        match FormatAll(fs[1..])
        case Fatal(e) =>
          assert forall k :: 0 <= k < |fs[1..]| ==> fs[1..][k] == fs[k + 1];
          var j :| && 0 <= j < |fs[1..]| && !Fits(fs[1..][j])
                   && (forall i :: 0 <= i < j ==> Fits(fs[1..][i]))
                   && e == FormatDoesNotFit(fs[1..][j].text, fs[1..][j].size);
          assert !Fits(fs[j + 1]) && forall i :: 0 <= i < j + 1 ==> Fits(fs[i]);
          Fatal(e)
        case Ok(rest) =>
          assert forall k :: 1 <= k < |fs| ==> fs[k] == fs[1..][k - 1];
          Ok([first] + rest)
  }
}

=== FILE: mount_image.dfy ===
/**
 * syz_mount_image on NetBSD: clamp the caller's segments into a bounded
 * image, write them into the worker's backing file, bind a vnd device to it
 * and mount it read-only.
 */
module MountImage {
  import opened Base
  import opened Format
  import opened Commands

  const ImageMaxSegments: nat := 4096

  /** 129 << 20 bytes. */
  const ImageMaxSize: nat := 129 * 0x10_0000

  /** struct fs_image_segment without its data pointer: how many bytes go where. */
  datatype Segment = Segment(size: uint64, offset: uint64)

  /**
   * One pass of the clamping loop over a segment: the size is capped at the
   * image size, the offset is reduced modulo it and then pulled down so the
   * segment ends inside the image.
   */
  function ClampSegment(s: Segment): (c: Segment)
    ensures c.size == Min(s.size, ImageMaxSize)
    ensures c.offset + c.size <= ImageMaxSize
    ensures c.offset <= s.offset % ImageMaxSize
    ensures s.offset % ImageMaxSize + c.size <= ImageMaxSize ==> c.offset == s.offset % ImageMaxSize
    ensures s.offset % ImageMaxSize + c.size > ImageMaxSize ==> c.offset == ImageMaxSize - c.size
    ensures c.size == ImageMaxSize ==> c.offset == 0
  {
    var size := if s.size > ImageMaxSize then ImageMaxSize else s.size;
    var offset := s.offset % ImageMaxSize;
    var offset := if offset > ImageMaxSize - size then ImageMaxSize - size else offset;
    Segment(size, offset)
  }

  /** The largest `offset + offset` over the segments (0 for none): what line 361 accumulates. */
  function MaxDoubledOffset(segs: seq<Segment>): nat {
    if |segs| == 0 then 0
    else Max(MaxDoubledOffset(segs[..|segs| - 1]), segs[|segs| - 1].offset + segs[|segs| - 1].offset)
  }

  /** MaxDoubledOffset is the maximum of `offset + offset` over the segments. */
  lemma {:induction false} MaxDoubledOffsetIsMax(segs: seq<Segment>)
    ensures forall k :: 0 <= k < |segs| ==> segs[k].offset + segs[k].offset <= MaxDoubledOffset(segs)
    ensures |segs| > 0 ==> exists k :: 0 <= k < |segs| && MaxDoubledOffset(segs) == segs[k].offset + segs[k].offset
  {
    if |segs| > 0 {
      var init := segs[..|segs| - 1];
      var last := |segs| - 1;
      MaxDoubledOffsetIsMax(init);
      assert forall k :: 0 <= k < |init| ==> init[k] == segs[k];
      if |init| > 0 && MaxDoubledOffset(init) >= segs[last].offset + segs[last].offset {
        var k :| 0 <= k < |init| && MaxDoubledOffset(init) == init[k].offset + init[k].offset;
        assert MaxDoubledOffset(segs) == segs[k].offset + segs[k].offset;
      } else {
        assert MaxDoubledOffset(segs) == segs[last].offset + segs[last].offset;
      }
    }
  }

  lemma MaxDoubledOffsetSnoc(segs: seq<Segment>, c: Segment)
    ensures MaxDoubledOffset(segs + [c]) == Max(MaxDoubledOffset(segs), c.offset + c.offset)
  {
    assert (segs + [c])[..|segs|] == segs;
  }

  /** The image size line 361 computes: the caller's size raised to twice every clamped offset, then capped. */
  function ImageSizeAsWritten(size: uint64, clamped: seq<Segment>): (r: nat)
    ensures r <= ImageMaxSize
    ensures forall k :: 0 <= k < |clamped| ==> Min(ImageMaxSize, clamped[k].offset + clamped[k].offset) <= r
  {
    MaxDoubledOffsetIsMax(clamped);
    Min(ImageMaxSize, Max(size, MaxDoubledOffset(clamped)))
  }

  /**
   * The clamping loop of syz_mount_image as written: the segment count is
   * capped, the first `n` segments are clamped (in place in the source; `out`
   * is the array afterwards), and the image size is raised to twice each
   * clamped offset and finally capped.
   */
  method ClampSegments(size: uint64, nsegs: uint64, segs: seq<Segment>) returns (total: uint64, n: nat, out: seq<Segment>)
    requires Min(nsegs, ImageMaxSegments) <= |segs|
    ensures n == Min(nsegs, ImageMaxSegments)
    ensures |out| == |segs|
    ensures forall k :: 0 <= k < n ==> out[k] == ClampSegment(segs[k])
    ensures forall k :: n <= k < |segs| ==> out[k] == segs[k]
    ensures total == ImageSizeAsWritten(size, out[..n])
    ensures out[..n] == ClampedPrefix(nsegs, segs)
  {
    n := if nsegs > ImageMaxSegments then ImageMaxSegments else nsegs;
    var done: seq<Segment> := [];
    var acc: uint64 := size;
    var i := 0;
    while i < n
      invariant 0 <= i <= n
      invariant |done| == i
      invariant forall k :: 0 <= k < i ==> done[k] == ClampSegment(segs[k])
      invariant acc == Max(size, MaxDoubledOffset(done))
    {
      var c := ClampSegment(segs[i]);
      MaxDoubledOffsetSnoc(done, c);
      done := done + [c];
      if acc < c.offset + c.offset {
        acc := c.offset + c.offset;
      }
      i := i + 1;
    }
    out := done + segs[n..];
    SpliceTail(done, segs, n);
    total := if acc > ImageMaxSize then ImageMaxSize else acc;
  }

  /** Writing `done` over the first `n` segments keeps the rest of them. */
  lemma SpliceTail(done: seq<Segment>, segs: seq<Segment>, n: nat)
    requires |done| == n <= |segs|
    ensures (done + segs[n..])[..n] == done
    ensures forall k :: n <= k < |segs| ==> (done + segs[n..])[k] == segs[k]
  {
    var out := done + segs[n..];
    assert out[..n] == done;
    forall k | n <= k < |segs|
      ensures out[k] == segs[k]
    {
      assert out[k] == segs[n..][k - n];
    }
  }

  /** A size-4096 segment at offset 0 ends past the image size line 361 computes for it. */
  lemma AsWrittenSizeMissesSegment()
    ensures var seg := ClampSegment(Segment(4096, 0));
            ImageSizeAsWritten(0, [seg]) < seg.offset + seg.size
  {
    var seg := ClampSegment(Segment(4096, 0));
    assert seg == Segment(4096, 0);
    assert MaxDoubledOffset([seg]) == 0;
  }

  /** The largest end `offset + size` over the segments (0 for none). */
  function MaxSegmentEnd(segs: seq<Segment>): (m: nat)
    ensures forall k :: 0 <= k < |segs| ==> segs[k].offset + segs[k].size <= m
    ensures |segs| > 0 ==> exists k :: 0 <= k < |segs| && m == segs[k].offset + segs[k].size
  {
    if |segs| == 0 then 0
    else Max(MaxSegmentEnd(segs[..|segs| - 1]), segs[|segs| - 1].offset + segs[|segs| - 1].size)
  }

  /**
   * The image size the recomputation evidently intends (`offset + size`):
   * the smallest size, not below the caller's and not above the maximum,
   * that holds every clamped segment.
   */
  function ImageSizeCorrected(size: uint64, clamped: seq<Segment>): (r: nat)
    requires forall k :: 0 <= k < |clamped| ==> clamped[k].offset + clamped[k].size <= ImageMaxSize
    ensures r <= ImageMaxSize
    ensures forall k :: 0 <= k < |clamped| ==> clamped[k].offset + clamped[k].size <= r
    ensures Min(size, ImageMaxSize) <= r
    ensures r == Min(size, ImageMaxSize) || exists k :: 0 <= k < |clamped| && r == clamped[k].offset + clamped[k].size
  {
    Min(ImageMaxSize, Max(size, MaxSegmentEnd(clamped)))
  }

  /** The segments the clamping loop leaves for writing, one per segment below the capped count. */
  function ClampedPrefix(nsegs: uint64, segs: seq<Segment>): (c: seq<Segment>)
    requires Min(nsegs, ImageMaxSegments) <= |segs|
    ensures |c| == Min(nsegs, ImageMaxSegments)
    ensures forall k :: 0 <= k < |c| ==> c[k] == ClampSegment(segs[k])
    ensures forall k :: 0 <= k < |c| ==> c[k].offset + c[k].size <= ImageMaxSize
  {
    var n := Min(nsegs, ImageMaxSegments);
    seq(n, k requires 0 <= k < n => ClampSegment(segs[k]))
  }

  /** Size of the name buffers (vnodename, vnodeiface, diskimage). */
  const NameBufSize: nat := 64

  /** Size of the zero-filled filesystem-type buffer. */
  const FsBufSize: nat := 32

  // What the templates /tmp/diskimage%d, vnd%d and /dev/vnd%d expand to for a worker.
  function DiskImage(procid: int): string { "/tmp/diskimage" + FormatD(procid) }
  function VndDevice(procid: int): string { "vnd" + FormatD(procid) }
  function VndIface(procid: int): string { "/dev/vnd" + FormatD(procid) }

  /**
   * strncpy into the zeroed buffer: the caller's filesystem type up to its
   * first NUL, cut to 31 characters so the buffer stays terminated.
   */
  function FsType(fsarg: string): (fs: string)
    ensures |fs| < FsBufSize
    ensures fs <= fsarg
    ensures forall i :: 0 <= i < |fs| ==> fs[i] != '\0'
    ensures |fs| < FsBufSize - 1 ==> |fs| == |fsarg| || fsarg[|fs|] == '\0'
  {
    var c := CString(fsarg);
    c[..Min(|c|, FsBufSize - 1)]
  }

  function VndconfigCommand(procid: int): Command {
    Command(true, "vndconfig " + VndDevice(procid) + " " + DiskImage(procid))
  }

  function MountCommand(procid: int, fsarg: string, dir: string): Command {
    Command(true, "mount -r -t " + FsType(fsarg) + " " + VndIface(procid) + " " + CString(dir))
  }

  /** Every name a worker's procid formats into a 64-byte buffer fits. */
  lemma MountNamesFit(procid: int32)
    ensures |DiskImage(procid)| < NameBufSize && |VndDevice(procid)| < NameBufSize && |VndIface(procid)| < NameBufSize
  {
    FormatDInt32Length(procid);
  }

  /**
   * The effects of one syz_mount_image call: its return value, the pwrite
   * calls on the backing file, the commands handed to system(), and the
   * filesystem type passed to mount.
   */
  datatype Mounted = Mounted(ret: int, writes: seq<Segment>, executed: seq<Command>, fsType: string)

  /**
   * syz_mount_image(fs, dir, size, nsegs, segments) for worker `procid`.
   * `imageOpens` says whether the backing file exists; `status` is the
   * shell's exit status for each command line. Failed pwrite calls are only
   * logged, so every clamped segment counts as written.
   */
  function SyzMountImage(procid: int32, fsarg: string, dir: string, size: uint64, nsegs: uint64,
                         segs: seq<Segment>, imageOpens: bool, status: string -> int): (r: Result<Mounted>)
    requires Min(nsegs, ImageMaxSegments) <= |segs|
    ensures !imageOpens ==> r == Ok(Mounted(-1, [], [], []))
    ensures r.Ok? ==> r.value.ret == 0 || r.value.ret == -1
    ensures imageOpens ==>
              (r.Ok? <==> Succeeds(VndconfigCommand(procid), status) && Succeeds(MountCommand(procid, fsarg, dir), status))
    ensures r.Ok? && r.value.ret == 0 ==>
              && |r.value.writes| == Min(nsegs, ImageMaxSegments)
              && (forall k :: 0 <= k < |r.value.writes| ==> r.value.writes[k] == ClampSegment(segs[k]))
              && (forall k :: 0 <= k < |r.value.writes| ==>
                    r.value.writes[k].offset + r.value.writes[k].size <= ImageMaxSize)
              && r.value.executed == [VndconfigCommand(procid), MountCommand(procid, fsarg, dir)]
              && r.value.fsType == FsType(fsarg)
    ensures imageOpens && r.Ok? ==> r.value.ret == 0
  {
    MountNamesFit(procid);
    match SnprintfCheck(DiskImage(procid), NameBufSize)
    case Fatal(e) => Fatal(e)
    case Ok(_) =>
      if !imageOpens then
        Ok(Mounted(-1, [], [], []))
      else
        var writes := ClampedPrefix(nsegs, segs);
        match SnprintfCheck(VndDevice(procid), NameBufSize)
        case Fatal(e) => Fatal(e)
        case Ok(_) =>
          match ExecuteCommand(VndconfigCommand(procid), status)
          case Fatal(e) => Fatal(e)
          case Ok(_) =>
            match SnprintfCheck(VndIface(procid), NameBufSize)
            case Fatal(e) => Fatal(e)
            case Ok(_) =>
              match ExecuteCommand(MountCommand(procid, fsarg, dir), status)
              case Fatal(e) => Fatal(e)
              case Ok(_) => Ok(Mounted(0, writes, [VndconfigCommand(procid), MountCommand(procid, fsarg, dir)], FsType(fsarg)))
  }

  /**
   * A mount directory of 128 characters or more does not fit the command
   * buffer, so the call ends the worker once the image file exists.
   */
  lemma LongMountDirIsFatal(procid: int32, fsarg: string, dir: string, size: uint64, nsegs: uint64,
                            segs: seq<Segment>, status: string -> int)
    requires Min(nsegs, ImageMaxSegments) <= |segs|
    requires |CString(dir)| >= CommandMaxLen
    ensures SyzMountImage(procid, fsarg, dir, size, nsegs, segs, true, status).Fatal?
  {
    assert |MountCommand(procid, fsarg, dir).text| >= |CString(dir)|;
  }

  /** Worker 2 attaches its own image to vnd2 and mounts vnd2's node read-only. */
  lemma WorkerTwoMountCommands()
    ensures VndconfigCommand(2).text == "vndconfig vnd2 /tmp/diskimage2"
    ensures MountCommand(2, "ffs", "/mnt").text == "mount -r -t ffs /dev/vnd2 /mnt"
  {
    assert FormatD(2) == "2";
    assert FsType("ffs") == "ffs";
    assert CString("/mnt") == "/mnt";
  }
}

=== FILE: tcp_extract.dfy ===
/**
 * syz_extract_tcp_res: read one frame from the tap device, find the TCP
 * header behind an Ethernet II and IPv4 or IPv6 header, and return its
 * sequence and acknowledgment numbers moved by caller-supplied deltas.
 *
 * Header layouts: Ethernet II (14 bytes, EtherType big-endian at offset 12);
 * IPv4 after section 3.1 of RFC 791 (IHL in the low nibble of byte 0,
 * protocol at offset 9, 20 fixed bytes); IPv6 after section 3 of RFC 8200
 * (40 fixed bytes, next header at offset 6); TCP after section 3.1 of
 * RFC 793 (sequence number at offset 4, acknowledgment at offset 8, 20 bytes).
 */
module TcpExtract {
  import opened Base
  import opened Bytes
  import opened Tun

  const EtherHeaderLen: nat := 14
  const EtherTypeOffset: nat := 12
  const EtherTypeIp: nat := 0x0800

  const Ipv4HeaderLen: nat := 20
  const Ipv4ProtocolOffset: nat := 9

  const Ipv6HeaderLen: nat := 40
  const Ipv6NextHeaderOffset: nat := 6

  const TcpHeaderLen: nat := 20
  const TcpSeqOffset: nat := 4
  const TcpAckOffset: nat := 8

  const IpprotoTcp: nat := 6

  /** The frame's EtherType field (ntohs of bytes 12 and 13). */
  function EtherType(frame: seq<uint8>): uint16
    requires |frame| >= EtherHeaderLen
  {
    BigEndian16(frame[EtherTypeOffset..EtherTypeOffset + 2])
  }

  /** ip_hl: the IPv4 header length in 32-bit words, the low nibble of the header's first byte. */
  function Ihl(frame: seq<uint8>): nat
    requires |frame| > EtherHeaderLen
  {
    frame[EtherHeaderLen] % 16
  }

  /**
   * Where the parser found the TCP header, if it did, and every frame index it
   * read on the way, in order.
   */
  datatype Located = Located(tcp: Option<nat>, touched: seq<nat>)

  predicate InBounds(touched: seq<nat>, length: nat) {
    forall k :: 0 <= k < |touched| ==> touched[k] < length
  }

  /**
   * The header walk of syz_extract_tcp_res: every branch checks the length
   * before it reads; any frame too short or not carrying TCP yields None.
   * An EtherType other than IPv4 is taken for IPv6.
   */
  function LocateTcpHeader(frame: seq<uint8>): (p: Located)
    ensures InBounds(p.touched, |frame|)
    ensures p.tcp.Some? ==> p.tcp.value + TcpHeaderLen <= |frame|
    ensures p.tcp.Some? ==> p.tcp.value == EtherHeaderLen + 4 * Ihl(frame) || p.tcp.value == EtherHeaderLen + Ipv6HeaderLen
  {
    if |frame| < EtherHeaderLen then
      Located(None, [])
    else
      var ethertype := [EtherTypeOffset, EtherTypeOffset + 1];
      if EtherType(frame) == EtherTypeIp then
        var ip := EtherHeaderLen;
        if |frame| < ip + Ipv4HeaderLen then
          Located(None, ethertype)
        else if frame[ip + Ipv4ProtocolOffset] != IpprotoTcp then
          Located(None, ethertype + [ip + Ipv4ProtocolOffset])
        else
          var tcp := ip + 4 * Ihl(frame);
          var read := ethertype + [ip + Ipv4ProtocolOffset, ip];
          if |frame| < tcp + TcpHeaderLen then Located(None, read) else Located(Some(tcp), read)
      else
        var ip6 := EtherHeaderLen;
        if |frame| < ip6 + Ipv6HeaderLen then
          Located(None, ethertype)
        else
          var read := ethertype + [ip6 + Ipv6NextHeaderOffset];
          if frame[ip6 + Ipv6NextHeaderOffset] != IpprotoTcp then
            Located(None, read)
          else if |frame| < ip6 + Ipv6HeaderLen + TcpHeaderLen then
            Located(None, read)
          else
            Located(Some(ip6 + Ipv6HeaderLen), read)
  }

  /** struct tcp_resources: the two numbers handed back to the program. */
  datatype TcpResources = TcpResources(seqNo: uint32, ackNo: uint32)

  /** The four bytes of the 32-bit field at `at` within the TCP header starting at `tcp`. */
  function Field32(frame: seq<uint8>, tcp: nat, at: nat): seq<uint8>
    requires tcp + at + 4 <= |frame|
  {
    frame[tcp + at..tcp + at + 4]
  }

  /** The parse of a whole frame: the resources, if any, and every index read. */
  datatype Extraction = Extraction(result: Option<TcpResources>, touched: seq<nat>)

  /**
   * Locate the TCP header and read its sequence and acknowledgment numbers,
   * each increased by the caller's delta as a uint32.
   */
  function ParseFrame(frame: seq<uint8>, seqInc: int, ackInc: int): (e: Extraction)
    ensures InBounds(e.touched, |frame|)
    ensures e.result.Some? <==> LocateTcpHeader(frame).tcp.Some?
    ensures e.result.Some? ==>
              var tcp := LocateTcpHeader(frame).tcp.value;
              && e.result.value.seqNo == AddWrap32(BigEndian32(Field32(frame, tcp, TcpSeqOffset)), ToUint32(seqInc))
              && e.result.value.ackNo == AddWrap32(BigEndian32(Field32(frame, tcp, TcpAckOffset)), ToUint32(ackInc))
  {
    var loc := LocateTcpHeader(frame);
    match loc.tcp
    case None => Extraction(None, loc.touched)
    case Some(tcp) =>
      var fieldReads := seq(8, k requires 0 <= k < 8 => tcp + TcpSeqOffset + k);
      var seqNo := BigEndian32(Field32(frame, tcp, TcpSeqOffset));
      var ackNo := BigEndian32(Field32(frame, tcp, TcpAckOffset));
      Extraction(Some(TcpResources(AddWrap32(seqNo, ToUint32(seqInc)), AddWrap32(ackNo, ToUint32(ackInc)))),
                 loc.touched + fieldReads)
  }

  /** The eight bytes written to `*res`: seq then ack, each in network byte order. */
  function Encode(r: TcpResources): (out: seq<uint8>)
    ensures |out| == 8
  {
    ToBigEndian32(r.seqNo) + ToBigEndian32(r.ackNo)
  }

  /** What syz_extract_tcp_res returns and what it writes to `*res`. */
  datatype ExtractReturn = ExtractReturn(ret: int, out: Option<seq<uint8>>)

  /**
   * syz_extract_tcp_res(res, seq_inc, ack_inc): -1 without a device, when the
   * read would block, or when the frame carries no TCP header; 0 after writing
   * the eight result bytes; fail() when the read fails otherwise.
   */
  function SyzExtractTcpRes(tunfd: int, dev: DeviceRead, seqInc: int, ackInc: int): (r: Result<ExtractReturn>)
    ensures tunfd < 0 ==> r == Ok(ExtractReturn(-1, None))
    ensures tunfd >= 0 && dev == ReadError(EAGAIN) ==> r == Ok(ExtractReturn(-1, None))
    ensures r.Fatal? <==> tunfd >= 0 && dev.ReadError? && dev.errno != EAGAIN
    ensures r.Ok? ==> (r.value.ret == 0 <==> r.value.out.Some?) && (r.value.ret == 0 || r.value.ret == -1)
    ensures r.Ok? && r.value.out.Some? ==>
              && tunfd >= 0 && dev.Frame?
              && var frame := dev.bytes[..Min(|dev.bytes|, TunMaxPacketSize)];
                 && ParseFrame(frame, seqInc, ackInc).result.Some?
                 && r.value.out.value == Encode(ParseFrame(frame, seqInc, ackInc).result.value)
    ensures tunfd >= 0 && dev.Frame? ==>
              var parse := ParseFrame(dev.bytes[..Min(|dev.bytes|, TunMaxPacketSize)], seqInc, ackInc).result;
              r == if parse.Some? then Ok(ExtractReturn(0, Some(Encode(parse.value)))) else Ok(ExtractReturn(-1, None))
  {
    if tunfd < 0 then
      Ok(ExtractReturn(-1, None))
    else
      match ReadTun(tunfd, TunMaxPacketSize, dev)
      case Fatal(e) => Fatal(e)
      case Ok(read) =>
        if read.rv == -1 then
          Ok(ExtractReturn(-1, None))
        else
          match ParseFrame(read.data, seqInc, ackInc).result
          case None => Ok(ExtractReturn(-1, None))
          case Some(res) => Ok(ExtractReturn(0, Some(Encode(res))))
  }

  /** A frame shorter than an Ethernet header is rejected before any byte is read. */
  lemma ShortFrameUnavailable(frame: seq<uint8>, seqInc: int, ackInc: int)
    requires |frame| < EtherHeaderLen
    ensures ParseFrame(frame, seqInc, ackInc) == Extraction(None, [])
  {
  }

  /**
   * IPv4: the TCP header is found exactly when the frame holds the fixed IPv4
   * header, the protocol is TCP and a whole TCP header follows the IHL words
   * of IPv4 header; it then starts right after those words. An IHL below 5
   * is accepted as it is.
   */
  lemma Ipv4Path(frame: seq<uint8>)
    requires |frame| >= EtherHeaderLen && EtherType(frame) == EtherTypeIp
    ensures LocateTcpHeader(frame).tcp.Some? <==>
              && |frame| >= EtherHeaderLen + Ipv4HeaderLen
              && frame[EtherHeaderLen + Ipv4ProtocolOffset] == IpprotoTcp
              && |frame| >= EtherHeaderLen + 4 * Ihl(frame) + TcpHeaderLen
    ensures |frame| >= EtherHeaderLen + Ipv4HeaderLen && LocateTcpHeader(frame).tcp.Some? ==>
              LocateTcpHeader(frame).tcp.value == EtherHeaderLen + 4 * Ihl(frame)
  {
  }

  /**
   * Any other EtherType is read as IPv6 without extension headers: the TCP
   * header is found exactly when the next-header byte says TCP and the frame
   * holds the fixed IPv6 header and a TCP header; it then starts at byte 54.
   */
  lemma NonIpv4Path(frame: seq<uint8>)
    requires |frame| >= EtherHeaderLen && EtherType(frame) != EtherTypeIp
    ensures LocateTcpHeader(frame).tcp.Some? <==>
              && |frame| >= EtherHeaderLen + Ipv6HeaderLen + TcpHeaderLen
              && frame[EtherHeaderLen + Ipv6NextHeaderOffset] == IpprotoTcp
    ensures LocateTcpHeader(frame).tcp.Some? ==> LocateTcpHeader(frame).tcp.value == EtherHeaderLen + Ipv6HeaderLen
  {
  }

  /**
   * The indices the parser reports are all it looks at: two frames of the same
   * length that agree on them parse identically.
   */
  lemma ResultDependsOnlyOnTouchedBytes(f: seq<uint8>, g: seq<uint8>, seqInc: int, ackInc: int)
    requires |f| == |g|
    requires forall k :: 0 <= k < |ParseFrame(f, seqInc, ackInc).touched| ==>
               f[ParseFrame(f, seqInc, ackInc).touched[k]] == g[ParseFrame(f, seqInc, ackInc).touched[k]]
    ensures ParseFrame(f, seqInc, ackInc) == ParseFrame(g, seqInc, ackInc)
  {
    var e := ParseFrame(f, seqInc, ackInc);
    if |f| >= EtherHeaderLen {
      assert f[12] == g[12] && f[13] == g[13] by {
        assert e.touched[0] == 12 && e.touched[1] == 13;
      }
      assert f[EtherTypeOffset..EtherTypeOffset + 2] == g[EtherTypeOffset..EtherTypeOffset + 2];
      if EtherType(f) == EtherTypeIp && |f| >= 34 {
        assert f[23] == g[23] by {
          assert e.touched[2] == 23;
        }
        if f[23] == IpprotoTcp {
          assert f[14] == g[14] by {
            assert e.touched[3] == 14;
          }
        }
      } else if EtherType(f) != EtherTypeIp && |f| >= 54 {
        assert f[20] == g[20] by {
          assert e.touched[2] == 20;
        }
      }
      var loc := LocateTcpHeader(f);
      assert loc == LocateTcpHeader(g);
      if loc.tcp.Some? {
        var tcp := loc.tcp.value;
        var n := |loc.touched|;
        forall j | tcp + TcpSeqOffset <= j < tcp + TcpAckOffset + 4
          ensures f[j] == g[j]
        {
          assert e.touched[n + (j - tcp - TcpSeqOffset)] == j;
        }
        SameField(f, g, tcp, TcpSeqOffset);
        SameField(f, g, tcp, TcpAckOffset);
      }
    }
  }

  /** Two frames that agree on a field's four bytes give the same field. */
  lemma SameField(f: seq<uint8>, g: seq<uint8>, tcp: nat, at: nat)
    requires tcp + at + 4 <= |f| == |g|
    requires forall j :: tcp + at <= j < tcp + at + 4 ==> f[j] == g[j]
    ensures Field32(f, tcp, at) == Field32(g, tcp, at)
  {
    forall i | 0 <= i < 4
      ensures Field32(f, tcp, at)[i] == Field32(g, tcp, at)[i]
    {
      assert Field32(f, tcp, at)[i] == f[tcp + at + i];
      assert Field32(g, tcp, at)[i] == g[tcp + at + i];
    }
  }

  /** With zero deltas the eight bytes written are the eight bytes of the two fields as they arrived. */
  lemma ZeroDeltaEchoesFields(frame: seq<uint8>)
    requires LocateTcpHeader(frame).tcp.Some?
    ensures ParseFrame(frame, 0, 0).result.Some?
    ensures var tcp := LocateTcpHeader(frame).tcp.value;
            Encode(ParseFrame(frame, 0, 0).result.value) == frame[tcp + TcpSeqOffset..tcp + TcpAckOffset + 4]
  {
    var tcp := LocateTcpHeader(frame).tcp.value;
    var s := Field32(frame, tcp, TcpSeqOffset);
    var a := Field32(frame, tcp, TcpAckOffset);
    EncodeDecode32(s);
    EncodeDecode32(a);
    assert frame[tcp + TcpSeqOffset..tcp + TcpAckOffset + 4] == s + a;
  }

  /** A TCP header carrying sequence number `s` and acknowledgment number `a`. */
  function TcpHeader(ports: seq<uint8>, s: uint32, a: uint32, rest: seq<uint8>): (h: seq<uint8>)
    requires |ports| == 4 && |rest| >= 12
    ensures |h| >= TcpHeaderLen
  {
    ports + ToBigEndian32(s) + ToBigEndian32(a) + rest
  }

  /** An Ethernet II frame: addresses, EtherType, then the payload. */
  function EthernetFrame(addresses: seq<uint8>, etherType: uint16, payload: seq<uint8>): seq<uint8>
    requires |addresses| == 12
  {
    addresses + [etherType / 0x100, etherType % 0x100] + payload
  }

  /** The TCP fields of a frame whose TCP header at `at` was built by TcpHeader. */
  lemma FieldsAt(frame: seq<uint8>, at: nat, ports: seq<uint8>, s: uint32, a: uint32, rest: seq<uint8>)
    requires |ports| == 4 && |rest| >= 12
    requires at <= |frame| && frame[at..] == TcpHeader(ports, s, a, rest)
    ensures at + TcpHeaderLen <= |frame|
    ensures BigEndian32(Field32(frame, at, TcpSeqOffset)) == s
    ensures BigEndian32(Field32(frame, at, TcpAckOffset)) == a
  {
    var h := TcpHeader(ports, s, a, rest);
    assert h[4..8] == ToBigEndian32(s) && h[8..12] == ToBigEndian32(a);
    assert Field32(frame, at, TcpSeqOffset) == h[4..8];
    assert Field32(frame, at, TcpAckOffset) == h[8..12];
    DecodeEncode32(s);
    DecodeEncode32(a);
  }

  /**
   * A well-formed IPv4/TCP frame gives back its sequence and acknowledgment
   * numbers moved by the deltas, modulo 2^32.
   */
  lemma Ipv4RoundTrip(addresses: seq<uint8>, ip: seq<uint8>, ports: seq<uint8>, s: uint32, a: uint32,
                      rest: seq<uint8>, seqInc: int, ackInc: int)
    requires |addresses| == 12 && |ports| == 4 && |rest| >= 12
    requires |ip| >= Ipv4HeaderLen && |ip| == 4 * (ip[0] % 16) && ip[Ipv4ProtocolOffset] == IpprotoTcp
    ensures ParseFrame(EthernetFrame(addresses, EtherTypeIp, ip + TcpHeader(ports, s, a, rest)), seqInc, ackInc).result
            == Some(TcpResources(AddWrap32(s, ToUint32(seqInc)), AddWrap32(a, ToUint32(ackInc))))
  {
    var frame := EthernetFrame(addresses, EtherTypeIp, ip + TcpHeader(ports, s, a, rest));
    assert frame[EtherTypeOffset..EtherTypeOffset + 2] == [0x08, 0x00];
    assert frame[EtherHeaderLen] == ip[0];
    assert frame[EtherHeaderLen + Ipv4ProtocolOffset] == ip[Ipv4ProtocolOffset];
    var at := EtherHeaderLen + |ip|;
    assert frame[at..] == TcpHeader(ports, s, a, rest);
    FieldsAt(frame, at, ports, s, a, rest);
  }

  /**
   * A well-formed IPv6/TCP frame (no extension headers) gives back its sequence
   * and acknowledgment numbers moved by the deltas, modulo 2^32.
   */
  lemma Ipv6RoundTrip(addresses: seq<uint8>, ip6: seq<uint8>, ports: seq<uint8>, s: uint32, a: uint32,
                      rest: seq<uint8>, seqInc: int, ackInc: int)
    requires |addresses| == 12 && |ports| == 4 && |rest| >= 12
    requires |ip6| == Ipv6HeaderLen && ip6[Ipv6NextHeaderOffset] == IpprotoTcp
    ensures ParseFrame(EthernetFrame(addresses, 0x86DD, ip6 + TcpHeader(ports, s, a, rest)), seqInc, ackInc).result
            == Some(TcpResources(AddWrap32(s, ToUint32(seqInc)), AddWrap32(a, ToUint32(ackInc))))
  {
    var frame := EthernetFrame(addresses, 0x86DD, ip6 + TcpHeader(ports, s, a, rest));
    assert frame[EtherTypeOffset..EtherTypeOffset + 2] == [0x86, 0xDD];
    assert frame[EtherHeaderLen + Ipv6NextHeaderOffset] == ip6[Ipv6NextHeaderOffset];
    var at := EtherHeaderLen + Ipv6HeaderLen;
    assert frame[at..] == TcpHeader(ports, s, a, rest);
    FieldsAt(frame, at, ports, s, a, rest);
  }

  /**
   * With zero deltas, a frame that carries TCP comes back as the eight bytes of
   * its sequence and acknowledgment fields, and the call returns 0.
   */
  lemma ExtractEchoesFields(tunfd: int, frame: seq<uint8>)
    requires tunfd >= 0 && |frame| <= TunMaxPacketSize
    requires LocateTcpHeader(frame).tcp.Some?
    ensures var tcp := LocateTcpHeader(frame).tcp.value;
            SyzExtractTcpRes(tunfd, Frame(frame), 0, 0) ==
              Ok(ExtractReturn(0, Some(frame[tcp + TcpSeqOffset..tcp + TcpAckOffset + 4])))
  {
    assert frame[..Min(|frame|, TunMaxPacketSize)] == frame;
    ZeroDeltaEchoesFields(frame);
  }
}

=== FILE: tun.dfy ===
/**
 * The per-worker tap device: range check of the worker's tun id, the names and
 * addresses derived from it, the commands initialize_tun issues, descriptor
 * relocation, and the guards of syz_emit_ethernet and read_tun.
 */
module Tun {
  import opened Base
  import opened Format
  import opened Commands

  datatype Os = FreeBSD | OpenBSD | NetBSD

  /** How many tap devices exist: 64 on NetBSD images, 4 in a default install elsewhere. */
  function MaxTun(os: Os): nat {
    if os == NetBSD then 64 else 4
  }

  /** The descriptor slot the device is moved to, out of the fuzzer's way. */
  const TunFdSlot: int := 240

  /** The tunfd value meaning "no device". */
  const NoTun: int := -1

  /** Frames are read into a buffer of this many bytes; longer frames are truncated. */
  const TunMaxPacketSize: nat := 1000

  /** errno values of the BSD kernels. */
  const ENOENT: int := 2
  const EAGAIN: int := 35

  // The fixed templates; each name is formatted into a buffer of its template's own size.
  const TunIfaceTemplate: string := "tap%d"
  const TunDeviceTemplate: string := "/dev/tap%d"
  const LocalMacTemplate: string := "aa:aa:aa:aa:aa:aa"
  const RemoteMacTemplate: string := "aa:aa:aa:aa:aa:bb"
  const LocalIpv4Template: string := "172.20.%d.170"
  const RemoteIpv4Template: string := "172.20.%d.187"
  const LocalIpv6Template: string := "fe80::%02hxaa"
  const RemoteIpv6Template: string := "fe80::%02hxbb"

  /** `sizeof` of a string literal: its characters and the terminating NUL. */
  function SizeOf(template: string): nat {
    |template| + 1
  }

  // What each template expands to for a given id.
  function TunIface(id: int): string { "tap" + FormatD(id) }
  function TunDevice(id: int): string { "/dev/tap" + FormatD(id) }
  function LocalIpv4(id: int): string { "172.20." + FormatD(id) + ".170" }
  function RemoteIpv4(id: int): string { "172.20." + FormatD(id) + ".187" }
  function LocalIpv6(id: int): string { "fe80::" + FormatHex02h(id) + "aa" }
  function RemoteIpv6(id: int): string { "fe80::" + FormatHex02h(id) + "bb" }

  /** The ifconfig keyword that sets a link-layer address. */
  function MacVerb(os: Os): string {
    match os
    case OpenBSD => "lladdr"
    case NetBSD => "link"
    case FreeBSD => "ether"
  }

  datatype TunNames = TunNames(
    device: string, iface: string,
    localMac: string, localIpv4: string,
    remoteMac: string, remoteIpv4: string,
    localIpv6: string, remoteIpv6: string)

  /**
   * What initialize_tun does for a worker: the best-effort teardown before the
   * device is opened, and the configuration after it has been relocated.
   */
  datatype TunPlan = TunPlan(names: TunNames, teardown: seq<Command>, configure: seq<Command>)

  /** The template expansions for one id, in the order initialize_tun formats them. */
  function NamesFor(id: int): TunNames {
    TunNames(TunDevice(id), TunIface(id), LocalMacTemplate, LocalIpv4(id),
             RemoteMacTemplate, RemoteIpv4(id), LocalIpv6(id), RemoteIpv6(id))
  }

  /**
   * The snprintf_check calls of initialize_tun, in the order the names appear
   * in TunNames, each into a buffer of its template's size.
   */
  function TunFormattings(id: int): seq<Formatting> {
    [Formatting(TunDevice(id), SizeOf(TunDeviceTemplate)),
     Formatting(TunIface(id), SizeOf(TunIfaceTemplate)),
     Formatting(LocalMacTemplate, SizeOf(LocalMacTemplate)),
     Formatting(LocalIpv4(id), SizeOf(LocalIpv4Template)),
     Formatting(RemoteMacTemplate, SizeOf(RemoteMacTemplate)),
     Formatting(RemoteIpv4(id), SizeOf(RemoteIpv4Template)),
     Formatting(LocalIpv6(id), SizeOf(LocalIpv6Template)),
     Formatting(RemoteIpv6(id), SizeOf(RemoteIpv6Template))]
  }

  /**
   * The commands run before the device is opened, so a stale interface of the
   * same name is gone: all best-effort, starting with the destroy.
   */
  function TeardownCommands(os: Os, names: TunNames): (c: seq<Command>)
    ensures forall k :: 0 <= k < |c| ==> !c[k].panic
    ensures 1 <= |c| && c[0] == Command(false, "ifconfig " + (if os == NetBSD then names.iface else names.device) + " destroy")
    ensures |c| == 2 <==> os == NetBSD
    ensures os == NetBSD ==> c[1] == Command(false, "ifconfig " + names.iface + " create")
  {
    if os == NetBSD then
      [Command(false, "ifconfig " + names.iface + " destroy"), Command(false, "ifconfig " + names.iface + " create")]
    else
      [Command(false, "ifconfig " + names.device + " destroy")]
  }

  /** Set the interface's MAC address to the local MAC. */
  function MacText(os: Os, names: TunNames): string {
    "ifconfig " + names.iface + " " + MacVerb(os) + " " + names.localMac
  }

  /** Give the interface its IPv4 address in a /24. */
  function InetText(names: TunNames): string {
    "ifconfig " + names.iface + " inet " + names.localIpv4 + " netmask 255.255.255.0"
  }

  /** An ARP entry for the remote IPv4 address and MAC. */
  function ArpText(names: TunNames): string {
    "arp -s " + names.remoteIpv4 + " " + names.remoteMac
  }

  /** Give the interface its link-local IPv6 address. */
  function Inet6Text(names: TunNames): string {
    "ifconfig " + names.iface + " inet6 " + names.localIpv6
  }

  /** An NDP entry for the remote IPv6 address (scoped to the interface) and MAC. */
  function NdpText(names: TunNames): string {
    "ndp -s " + names.remoteIpv6 + "%" + names.iface + " " + names.remoteMac
  }

  /** The commands run after the device has been relocated: MAC, IPv4, ARP entry, IPv6, NDP entry. */
  function ConfigureCommands(os: Os, names: TunNames): (c: seq<Command>)
    ensures |c| == 5
    ensures forall k :: 0 <= k < |c| ==> (c[k].panic <==> k != 2 && k != 4)
  {
    [Command(true, MacText(os, names)),
     Command(true, InetText(names)),
     Command(false, ArpText(names)),
     Command(true, Inet6Text(names)),
     Command(false, NdpText(names))]
  }

  /** Every in-range id is at most two decimal digits. */
  lemma InRangeIdDigits(os: Os, id: int)
    requires 0 <= id < MaxTun(os)
    ensures |FormatD(id)| <= 2
  {
    DecimalLengthBound(id, 2);
  }

  /** Every name of an in-range id is short: at most 13 characters, as the templates' buffers require. */
  lemma NamesShort(os: Os, id: int)
    requires 0 <= id < MaxTun(os)
    ensures var n := NamesFor(id);
            |n.device| <= 10 && |n.iface| <= 5 && |n.localMac| == 17 && |n.remoteMac| == 17
            && |n.localIpv4| <= 13 && |n.remoteIpv4| <= 13 && |n.localIpv6| == 10 && |n.remoteIpv6| == 10
  {
    InRangeIdDigits(os, id);
    assert 0 <= id < 0x100;
  }

  /** Every command initialize_tun issues for an in-range id fits execute_command's buffer. */
  lemma PlanCommandsFit(os: Os, id: int)
    requires 0 <= id < MaxTun(os)
    ensures forall k :: 0 <= k < |TeardownCommands(os, NamesFor(id))| ==> |TeardownCommands(os, NamesFor(id))[k].text| < CommandMaxLen
    ensures forall k :: 0 <= k < |ConfigureCommands(os, NamesFor(id))| ==> |ConfigureCommands(os, NamesFor(id))[k].text| < CommandMaxLen
  {
    NamesShort(os, id);
  }

  /** For an id in range the teardown never ends the worker, and every teardown command reaches the shell. */
  lemma TeardownIsBestEffort(os: Os, id: int, status: string -> int)
    requires 0 <= id < MaxTun(os)
    ensures RunCommands(TeardownCommands(os, NamesFor(id)), status).outcome.Ok?
    ensures RunCommands(TeardownCommands(os, NamesFor(id)), status).executed == TeardownCommands(os, NamesFor(id))
  {
    var cmds := TeardownCommands(os, NamesFor(id));
    PlanCommandsFit(os, id);
    BestEffortCommandsNeverFatal(cmds, status);
  }

  /** The names and commands initialize_tun uses, or fail() when the id is out of range. */
  function PlanTun(os: Os, tunId: int): (r: Result<TunPlan>)
    ensures r.Ok? <==> 0 <= tunId < MaxTun(os)
    ensures r.Fatal? ==> r.reason == TunIdOutOfRange(tunId)
    ensures r.Ok? ==> r.value.names == NamesFor(tunId)
    ensures r.Ok? ==> r.value.teardown == TeardownCommands(os, r.value.names)
    ensures r.Ok? ==> r.value.configure == ConfigureCommands(os, r.value.names)
    ensures r.Ok? ==> forall k :: 0 <= k < |r.value.teardown| ==> !r.value.teardown[k].panic
    ensures r.Ok? ==> forall k :: 0 <= k < |r.value.teardown| ==> |r.value.teardown[k].text| < CommandMaxLen
    ensures r.Ok? ==> forall k :: 0 <= k < |r.value.configure| ==> |r.value.configure[k].text| < CommandMaxLen
  {
    if tunId < 0 || tunId >= MaxTun(os) then
      Fatal(TunIdOutOfRange(tunId))
    else
      TunNamesFit(os, tunId);
      PlanCommandsFit(os, tunId);
      match FormatAll(TunFormattings(tunId))
      case Fatal(e) => Fatal(e)
      case Ok(_) =>
        var names := NamesFor(tunId);
        Ok(TunPlan(names, TeardownCommands(os, names), ConfigureCommands(os, names)))
  }

  /** initialize_tun never fails to format a name for an id in range. */
  lemma TunNamesFit(os: Os, id: int)
    requires 0 <= id < MaxTun(os)
    ensures forall k :: 0 <= k < |TunFormattings(id)| ==> Fits(TunFormattings(id)[k])
  {
    NamesShort(os, id);
  }

  /** Equal strings with a common prefix and suffix have equal middles. */
  lemma ConcatCancel(p: string, x: string, y: string, q: string)
    requires p + x + q == p + y + q
    ensures x == y
  {
    assert |x| == |y|;
    assert x == (p + x + q)[|p|..|p| + |x|];
    assert y == (p + y + q)[|p|..|p| + |y|];
  }

  /** Workers with different ids get different interfaces, devices and addresses. */
  lemma DistinctWorkersDistinctNames(os: Os, m: int, n: int)
    requires 0 <= m < MaxTun(os) && 0 <= n < MaxTun(os) && m != n
    ensures TunIface(m) != TunIface(n) && TunDevice(m) != TunDevice(n)
    ensures LocalIpv4(m) != LocalIpv4(n) && RemoteIpv4(m) != RemoteIpv4(n)
    ensures LocalIpv6(m) != LocalIpv6(n) && RemoteIpv6(m) != RemoteIpv6(n)
  {
    DecimalInjective(m, n);
    Hex02hInjective(m, n);
    var dm, dn := FormatD(m), FormatD(n);
    var hm, hn := FormatHex02h(m), FormatHex02h(n);
    if TunIface(m) == TunIface(n) {
      ConcatCancel("tap", dm, dn, "");
    }
    if TunDevice(m) == TunDevice(n) {
      ConcatCancel("/dev/tap", dm, dn, "");
    }
    if LocalIpv4(m) == LocalIpv4(n) {
      ConcatCancel("172.20.", dm, dn, ".170");
    }
    if RemoteIpv4(m) == RemoteIpv4(n) {
      ConcatCancel("172.20.", dm, dn, ".187");
    }
    if LocalIpv6(m) == LocalIpv6(n) {
      ConcatCancel("fe80::", hm, hn, "aa");
    }
    if RemoteIpv6(m) == RemoteIpv6(n) {
      ConcatCancel("fe80::", hm, hn, "bb");
    }
  }

  /** Worker 2 uses interface tap2 with addresses 172.20.2.170 (local) and 172.20.2.187 (remote). */
  lemma WorkerTwoNames()
    ensures TunIface(2) == "tap2" && TunDevice(2) == "/dev/tap2"
    ensures LocalIpv4(2) == "172.20.2.170" && RemoteIpv4(2) == "172.20.2.187"
    ensures LocalIpv6(2) == "fe80::02aa" && RemoteIpv6(2) == "fe80::02bb"
  {
    assert FormatD(2) == "2";
    assert FormatHex02h(2) == "02";
  }

  /** Which flavour of the program is built: the executor (with its tun flag) or a standalone reproducer. */
  datatype Build = Executor(enableTun: bool) | Reproducer

  /** What open(2) returned for the device node. */
  datatype OpenResult = Opened(fd: nat) | OpenFailed(errno: int)

  /**
   * The outside world during initialize_tun: the first open of the device, the
   * retry after loading the module, whether dup2 succeeds, and the status the
   * shell returns for each command line.
   */
  datatype TunEnv = TunEnv(open: OpenResult, reopen: OpenResult, dup2Ok: bool, status: string -> int)

  /** The worker's tunfd after initialize_tun and the commands it passed to system(). */
  datatype TunState = TunState(tunfd: int, executed: seq<Command>)

  const KldloadCommand: Command := Command(false, "kldload -q if_tap")

  /**
   * The device open: on FreeBSD a missing node (ENOENT) makes it load the
   * if_tap module once and open again.
   */
  function OpenDevice(os: Os, env: TunEnv): (r: (OpenResult, seq<Command>))
    ensures r.1 == [] || r.1 == [KldloadCommand]
    ensures r.1 != [] <==> os == FreeBSD && env.open == OpenFailed(ENOENT)
    ensures r.0 == if r.1 == [] then env.open else env.reopen
  {
    if os == FreeBSD && env.open.OpenFailed? && env.open.errno == ENOENT then (env.reopen, [KldloadCommand])
    else (env.open, [])
  }

  /**
   * initialize_tun once the names are formatted: the best-effort teardown, the
   * device open (`dev`, with the commands it needed), relocation to the
   * reserved slot, then the configuration commands.
   */
  function Provision(build: Build, plan: TunPlan, dev: (OpenResult, seq<Command>), env: TunEnv): (r: Result<TunState>)
    requires forall k :: 0 <= k < |plan.teardown| ==> !plan.teardown[k].panic && |plan.teardown[k].text| < CommandMaxLen
    requires forall k :: 0 <= k < |dev.1| ==> !dev.1[k].panic && |dev.1[k].text| < CommandMaxLen
    ensures r.Ok? ==> r.value.tunfd == NoTun || r.value.tunfd == TunFdSlot
    ensures r.Ok? && r.value.tunfd == NoTun ==>
              build == Reproducer && dev.0.OpenFailed? && r.value.executed == plan.teardown + dev.1
    ensures r.Ok? && r.value.tunfd == TunFdSlot ==>
              && dev.0.Opened?
              && env.dup2Ok
              && (forall k :: 0 <= k < |plan.configure| ==> Succeeds(plan.configure[k], env.status))
              && r.value.executed == plan.teardown + dev.1 + plan.configure
    ensures r.Fatal? && build.Executor? && dev.0.OpenFailed? ==> r.reason == TunOpenFailed(plan.names.device)
    ensures build == Reproducer && dev.0.OpenFailed? ==> r == Ok(TunState(NoTun, plan.teardown + dev.1))
    ensures dev.0.Opened? && !env.dup2Ok ==> r == Fatal(Dup2Failed)
    ensures dev.0.Opened? && env.dup2Ok && (forall k :: 0 <= k < |plan.configure| ==> Succeeds(plan.configure[k], env.status)) ==>
              r == Ok(TunState(TunFdSlot, plan.teardown + dev.1 + plan.configure))
  {
    BestEffortCommandsNeverFatal(plan.teardown, env.status);
    BestEffortCommandsNeverFatal(dev.1, env.status);
    var before := plan.teardown + dev.1;
    if dev.0.OpenFailed? then
      if build.Executor? then Fatal(TunOpenFailed(plan.names.device)) else Ok(TunState(NoTun, before))
    else if !env.dup2Ok then
      Fatal(Dup2Failed)
    else
      var conf := RunCommands(plan.configure, env.status);
      RunFatalIffSomeCommandFails(plan.configure, env.status);
      match conf.outcome
      case Fatal(e) => Fatal(e)
      case Ok(_) => Ok(TunState(TunFdSlot, before + conf.executed))
  }

  /** initialize_tun(tun_id). */
  function InitializeTun(os: Os, build: Build, tunId: int, env: TunEnv): (r: Result<TunState>)
    ensures build == Executor(false) ==> r == Ok(TunState(NoTun, []))
    ensures build != Executor(false) && !(0 <= tunId < MaxTun(os)) ==> r == Fatal(TunIdOutOfRange(tunId))
    ensures r.Ok? ==> r.value.tunfd == NoTun || r.value.tunfd == TunFdSlot
    ensures build == Executor(true) && r.Ok? ==> r.value.tunfd == TunFdSlot
    ensures r.Ok? && r.value.tunfd == TunFdSlot ==>
              && OpenDevice(os, env).0.Opened?
              && env.dup2Ok
              && PlanTun(os, tunId).Ok?
              && (forall k :: 0 <= k < |PlanTun(os, tunId).value.configure| ==>
                    Succeeds(PlanTun(os, tunId).value.configure[k], env.status))
              && r.value.executed ==
                   PlanTun(os, tunId).value.teardown + OpenDevice(os, env).1 + PlanTun(os, tunId).value.configure
    ensures r.Ok? && build != Executor(false) ==>
              1 <= |r.value.executed| && r.value.executed[0] ==
                Command(false, "ifconfig " + (if os == NetBSD then TunIface(tunId) else TunDevice(tunId)) + " destroy")
    ensures r.Fatal? && build != Reproducer && 0 <= tunId < MaxTun(os) && OpenDevice(os, env).0.OpenFailed? ==>
              r.reason == TunOpenFailed(TunDevice(tunId))
    ensures build != Executor(false) && 0 <= tunId < MaxTun(os) && OpenDevice(os, env).0.Opened? && env.dup2Ok
            && (forall k :: 0 <= k < |ConfigureCommands(os, NamesFor(tunId))| ==>
                  Succeeds(ConfigureCommands(os, NamesFor(tunId))[k], env.status)) ==>
              r.Ok? && r.value.tunfd == TunFdSlot
  {
    if build == Executor(false) then
      Ok(TunState(NoTun, []))
    else
      match PlanTun(os, tunId)
      case Fatal(e) => Fatal(e)
      case Ok(plan) =>
        var r := Provision(build, plan, OpenDevice(os, env), env);
        assert r.Ok? ==> r.value.executed[0] == plan.teardown[0];
        r
  }

  /** syz_emit_ethernet: the bytes handed to write(2), if any, and the value returned. */
  datatype Emitted = Emitted(ret: int, written: Option<seq<uint8>>)

  /**
   * syz_emit_ethernet(len, packet): without a device it returns -1 and writes
   * nothing; otherwise the packet goes to the device verbatim and write(2)'s
   * result is returned.
   */
  function SyzEmitEthernet(tunfd: int, packet: seq<uint8>, writeResult: int): (e: Emitted)
    ensures e.written.None? <==> tunfd < 0
    ensures e.written.None? ==> e.ret == -1
    ensures e.written.Some? ==> e.written.value == packet && e.ret == writeResult
  {
    if tunfd < 0 then Emitted(-1, None) else Emitted(writeResult, Some(packet))
  }

  /** A worker whose tun support is switched off, or whose reproducer could not open the device, emits nothing. */
  lemma EmitWithoutDevice(os: Os, build: Build, tunId: int, env: TunEnv, packet: seq<uint8>, writeResult: int)
    requires build == Executor(false) || (build == Reproducer && 0 <= tunId < MaxTun(os) && OpenDevice(os, env).0.OpenFailed?)
    ensures InitializeTun(os, build, tunId, env).Ok?
    ensures SyzEmitEthernet(InitializeTun(os, build, tunId, env).value.tunfd, packet, writeResult) == Emitted(-1, None)
  {
  }

  /** What read(2) on the device yields: the next frame, or an error number. */
  datatype DeviceRead = Frame(bytes: seq<uint8>) | ReadError(errno: int)

  /** read_tun's return value and the bytes placed in the caller's buffer. */
  datatype TunRead = TunRead(rv: int, data: seq<uint8>)

  /**
   * read_tun(data, size): -1 without a device or when the read would block,
   * fail() on any other error, otherwise the number of bytes read, the frame
   * truncated to the buffer.
   */
  function ReadTun(tunfd: int, size: nat, dev: DeviceRead): (r: Result<TunRead>)
    ensures tunfd < 0 ==> r == Ok(TunRead(-1, []))
    ensures r.Fatal? <==> tunfd >= 0 && dev.ReadError? && dev.errno != EAGAIN
    ensures r.Fatal? ==> r.reason == TunReadFailed(-1)
    ensures r.Ok? ==> (r.value.rv == -1 <==> tunfd < 0 || dev.ReadError?)
    ensures r.Ok? && r.value.rv == -1 ==> r.value.data == []
    ensures r.Ok? && r.value.rv != -1 ==>
              && 0 <= r.value.rv == |r.value.data| <= size
              && |r.value.data| == Min(|dev.bytes|, size)
              && r.value.data == dev.bytes[..|r.value.data|]
  {
    if tunfd < 0 then
      Ok(TunRead(-1, []))
    else
      match dev
      case ReadError(errno) =>
        if errno == EAGAIN then Ok(TunRead(-1, [])) else Fatal(TunReadFailed(-1))
      case Frame(bytes) =>
        var n := Min(|bytes|, size);
        Ok(TunRead(n, bytes[..n]))
  }

  /**
   * Configuring the interface ends the worker exactly when setting the MAC
   * address, the IPv4 address or the IPv6 address exits non-zero; the ARP and
   * NDP entries are best-effort.
   */
  lemma ConfigureFailurePolicy(os: Os, names: TunNames, status: string -> int)
    requires forall k :: 0 <= k < |ConfigureCommands(os, names)| ==> |ConfigureCommands(os, names)[k].text| < CommandMaxLen
    ensures RunCommands(ConfigureCommands(os, names), status).outcome.Ok? <==>
              && status(PathPrefix + MacText(os, names)) == 0
              && status(PathPrefix + InetText(names)) == 0
              && status(PathPrefix + Inet6Text(names)) == 0
  {
    var cs := ConfigureCommands(os, names);
    var run := RunCommands(cs, status);
    RunFatalIffSomeCommandFails(cs, status);
    if !run.outcome.Ok? {
      var j := FirstFailure(cs, status);
      assert cs[j].panic;
      assert j == 0 || j == 1 || j == 3;
    } else {
      assert Succeeds(cs[0], status) && Succeeds(cs[1], status) && Succeeds(cs[3], status);
    }
  }

  /**
   * Once the device is open and relocated, initialize_tun ends the worker
   * exactly when setting the MAC address, the IPv4 address or the IPv6
   * address exits non-zero.
   */
  lemma InitializeTunFailurePolicy(os: Os, build: Build, tunId: int, env: TunEnv)
    requires build != Executor(false) && 0 <= tunId < MaxTun(os)
    requires OpenDevice(os, env).0.Opened? && env.dup2Ok
    ensures InitializeTun(os, build, tunId, env).Ok? <==>
              && env.status(PathPrefix + MacText(os, NamesFor(tunId))) == 0
              && env.status(PathPrefix + InetText(NamesFor(tunId))) == 0
              && env.status(PathPrefix + Inet6Text(NamesFor(tunId))) == 0
  {
    PlanCommandsFit(os, tunId);
    ConfigureFailurePolicy(os, NamesFor(tunId), env.status);
    RunFatalIffSomeCommandFails(ConfigureCommands(os, NamesFor(tunId)), env.status);
  }

  /** Each OS sets the link-layer address with its own ifconfig keyword. */
  lemma MacVerbPerOs()
    ensures MacVerb(OpenBSD) == "lladdr" && MacVerb(NetBSD) == "link" && MacVerb(FreeBSD) == "ether"
  {
  }

  /**
   * The configuration commands of a worker carry its own names: the interface
   * gets the local MAC and the local addresses, and the ARP and NDP entries
   * map the remote addresses to the remote MAC.
   */
  lemma ConfigureTexts(os: Os, id: int)
    ensures var c := ConfigureCommands(os, NamesFor(id));
            && c[0].text == "ifconfig " + TunIface(id) + " " + MacVerb(os) + " " + LocalMacTemplate
            && c[1].text == "ifconfig " + TunIface(id) + " inet " + LocalIpv4(id) + " netmask 255.255.255.0"
            && c[2].text == "arp -s " + RemoteIpv4(id) + " " + RemoteMacTemplate
            && c[3].text == "ifconfig " + TunIface(id) + " inet6 " + LocalIpv6(id)
            && c[4].text == "ndp -s " + RemoteIpv6(id) + "%" + TunIface(id) + " " + RemoteMacTemplate
  {
  }
}
